=== FILE: README.md ===
# MetalDetector strip chart, modelled in Dafny

The MetalDetector app reads the magnetic-field sensor. Each reading is reduced to an integer value in [0, 100]. A value above 50 starts a tone. The value is also shown on a scrolling strip chart, the graph view. This project models the integer logic of both.

- **The graph view's sample ring** (`SampleRing`). A fixed buffer of 750 ints and the cursor `valueBufferStartPosition`. Each timer tick wraps the cursor if it has reached 750, stores the current value there and advances the cursor. The drawing code reads the latest `N = graphWidth/xWidth + 1` samples back with `(start + x + 750 - N) % 750`, using Java's sign-keeping `%` (`JavaInt.Rem`).
- **The grid** (`GridLayout`). The layout is computed from the canvas size on every draw. It yields a flat array of line segments for `Canvas.drawLines` and the eleven `%` labels. The first loop writes one horizontal line too many (row 11). The second loop starts at `(rows+1)*4` and overwrites it.
- **The curve** (`GraphGeometry`). Every column becomes a screen point, and two paths are built from them: the stroked line and the filled surface. `moveTo`, `lineTo` and `setLastPoint` are operations on a sequence of vertices.
- **The view state and one draw pass** (`GraphView`). The current value `y`, the step `xWidth` and the ring; `draw` combines layout, grid and curve.
- **The fragment's reaction to a reading** (`MetalDetectorFragment`). `(int) Math.sqrt(x*x + y*y + z*z)` is computed in Java `int` arithmetic (`JavaInt.Wrap`), capped at 100 and forwarded to the graph. A tone fires iff the value exceeds 50.

The headline result is `SampleRing.WindowIsLatestSamples`. After any sequence of at least N ticks, from any valid ring state, the N columns show exactly the last N values written, oldest on the left. This holds however often the cursor wrapped, including when the cursor sits at 750.

Facts about the code that its field names or the drawn picture might suggest otherwise:

- The view does not clamp the value it is given (`GraphView.SetValueIsNotClamped`). Only the fragment's cap keeps samples in [0, 100].
- `setxWidth` does not bound the width by the `minXWidth`/`maxXWidth` fields, which only their own getters read.
- The ring is not saved or restored with the view's state, so the history starts empty with every new view.
- The grid's left margin is twice the padding, and its top margin is half the label text size, not the padding.
- The y-scale is the integer quotient `(graphHeight + yMarginTop) / 100`. So a full-scale sample lands `(graphHeight + yMarginTop) % 100` pixels below the top of the canvas (`GraphGeometry.YPosScale`). That is on the grid's 100% line only when this remainder happens to equal `yMarginTop`, not in general.

The code relies on three conditions it never checks, and the model makes them preconditions:

- `xWidth > 0`, because it is a divisor.
- The canvas is at least twice the padding in each direction.
- `N <= 750`. Beyond that the columns no longer show the last N samples, and the ring index can go negative. Column 0's index is negative exactly when `N > 750 + start`, unless the difference is a multiple of 750 (`SampleRing.ColumnIndexInBoundsExactly`). So a fresh ring fails at N = 751 (`SampleRing.ColumnIndexNegativeWhenTooWide`), while a cursor at 750 reads in bounds up to N = 1500.

## Model

| member | source | states |
|---|---|---|
| JavaInt.Wrap | MetalDetector/src/org/siriusnet/metaldetector/MetalDetectorFragment.java:72 | Java `int` wrap-around: the result is an `int`, congruent to the exact value mod 2^32, and equal to it when it fits |
| JavaInt.Rem | MetalDetector/src/org/siriusnet/metaldetector/GraphView.java:134-136 | Java's `%` with a positive divisor: agrees with the mathematical remainder for a non-negative dividend; for a negative dividend it is in (-b, 0], i.e. it can be negative |
| JavaInt.Div | MetalDetector/src/org/siriusnet/metaldetector/GraphView.java:96 | Java's `/` on a non-negative dividend: the mathematical quotient for a positive divisor; for a negative divisor the quotient truncated toward zero, the q <= 0 with q*b <= a < q*b - b, which is 0 exactly when the divisor's magnitude exceeds the dividend |
| JavaInt.AddCongruent | MetalDetector/src/org/siriusnet/metaldetector/MetalDetectorFragment.java:72 | `int` addition respects wrap-around: sums of operands congruent mod 2^32 are congruent mod 2^32 |
| SampleRing.Empty | MetalDetector/src/org/siriusnet/metaldetector/GraphView.java:50-51 | the constructed ring is zero-filled with the cursor at 0 |
| SampleRing.Tick | MetalDetector/src/org/siriusnet/metaldetector/GraphView.java:232-235 | one tick writes `y` into exactly one slot, slot `start % 750`, in [0,749], changes no other slot, and leaves the cursor in 1..750 one past the written slot |
| SampleRing.NextCongruent | MetalDetector/src/org/siriusnet/metaldetector/GraphView.java:228-235 | successors of cursor positions congruent mod 750 are congruent mod 750 |
| SampleRing.Run | MetalDetector/src/org/siriusnet/metaldetector/GraphView.java:228-235 | after k ticks the cursor is congruent to start + k mod 750, and it is at least 1 after any tick |
| SampleRing.SlotByAge | MetalDetector/src/org/siriusnet/metaldetector/GraphView.java:232-235 | the slot written `age` ticks before the latest is `start - 1 - age`, taken mod 750 into [0,749] |
| SampleRing.ColumnIndex | MetalDetector/src/org/siriusnet/metaldetector/GraphView.java:134-136 | for cursor in [0,750], N <= 750 and x >= 0 the index `(start + x + 750 - N) % 750` is in [0,749] |
| SampleRing.ColumnIndexIsAge | MetalDetector/src/org/siriusnet/metaldetector/GraphView.java:130-136 | column x of N reads the slot written N-1-x ticks before the latest: column 0 the oldest shown, column N-1 the newest, also when the cursor is 750 |
| SampleRing.ColumnIndexNegativeWhenTooWide | MetalDetector/src/org/siriusnet/metaldetector/GraphView.java:130-136 | with N = 751 columns the index of column 0 on a fresh ring is -1 (out of bounds), because Java's `%` keeps the sign |
| SampleRing.ColumnIndexInBoundsExactly | MetalDetector/src/org/siriusnet/metaldetector/GraphView.java:130-136 | the index `(start + x + 750 - N) % 750` with Java's `%` is in [0,749] if and only if the dividend is non-negative or a multiple of 750; otherwise it is negative |
| SampleRing.Window | MetalDetector/src/org/siriusnet/metaldetector/GraphView.java:130-137 | the N samples drawn are N values taken from the buffer |
| SampleRing.RunKeepsHistory | MetalDetector/src/org/siriusnet/metaldetector/GraphView.java:232-235 | after any ticks, the slot written `age` ticks ago (age < 750) still holds the value written then |
| SampleRing.WindowIsLatestSamples | MetalDetector/src/org/siriusnet/metaldetector/GraphView.java:130-137 | after at least N ticks the N columns show exactly the last N values written, in order |
| SampleRing.WrapAroundScenario | MetalDetector/src/org/siriusnet/metaldetector/GraphView.java:232-235 | from cursor 747, writes 10, 20, 30 leave the cursor at 750 and the last three columns 10, 20, 30; a fourth write goes to slot 0 and the cursor becomes 1 |
| GridLayout.ComputeLayout | MetalDetector/src/org/siriusnet/metaldetector/GraphView.java:88-97 | if `draw` gets past the layout, the grid spans from 2*padding to the canvas's right edge, rowHeight is the integer quotient (rows*rowHeight <= graphHeight < rows*(rowHeight+1)), and yMarginTop is half the text size, rounded down; colWidth is `xWidth * 4` wrapped to an `int`, and equals 4*xWidth when that fits; for a positive colWidth, cols*colWidth <= graphWidth < (cols+1)*colWidth; `draw` throws `ArithmeticException` exactly when colWidth wraps to 0, and throws at all exactly when colWidth is 0 or negative with |colWidth| <= graphWidth (a negative column count) |
| GridLayout.GridColumns | MetalDetector/src/org/siriusnet/metaldetector/GraphView.java:96-100 | the column count `graphWidth / colWidth` and the array it sizes: division by a zero step throws `ArithmeticException`; otherwise the count is non-negative exactly when `draw` goes on, pinned by cols*colWidth <= graphWidth < (cols+1)*colWidth for a positive step and 0 for a negative one; a negative count throws `NegativeArraySizeException` exactly when the array size rows+cols+2 is negative, i.e. graphWidth >= 13·|colWidth|, and `ArrayIndexOutOfBoundsException` exactly when |colWidth| <= graphWidth < 13·|colWidth| |
| GridLayout.WrappedColumnStep | MetalDetector/src/org/siriusnet/metaldetector/GraphView.java:95-97 | with graphWidth 1000: step 2^30 wraps colWidth to 0 and throws `ArithmeticException`; step 2^30+1 gives colWidth 4 and 250 columns; step 2^30-1 gives colWidth -4, column count -250 and `NegativeArraySizeException`; step 2^29 gives colWidth -2^31 and a single vertical line |
| GridLayout.UnflattenFlatten | MetalDetector/src/org/siriusnet/metaldetector/GraphView.java:97-118 | packing segments four coordinates each and reading them back as `drawLines` does gives the same segments |
| GridLayout.FlattenUnflatten | MetalDetector/src/org/siriusnet/metaldetector/GraphView.java:97-118 | every flat array of length divisible by 4 is the packing of the segments `drawLines` reads from it |
| GridLayout.GridSegments | MetalDetector/src/org/siriusnet/metaldetector/GraphView.java:97 | the grid has rows+cols+2 segments, whatever the canvas size |
| GridLayout.GridInsideBox | MetalDetector/src/org/siriusnet/metaldetector/GraphView.java:94-116 | every grid segment lies inside [xMarginLeft, xMarginLeft+graphWidth] x [yMarginTop, yMarginTop+graphHeight] |
| GridLayout.ExtraRowOutsideBox | MetalDetector/src/org/siriusnet/metaldetector/GraphView.java:99-110 | the extra horizontal line written for row 11, which the vertical lines overwrite, lies outside that box once a row is 10 px or more |
| GridLayout.DecimalString | MetalDetector/src/org/siriusnet/metaldetector/GraphView.java:105 | the decimal rendering of a number is non-empty, all digits, with no leading zero |
| GridLayout.DecimalRoundTrip | MetalDetector/src/org/siriusnet/metaldetector/GraphView.java:105 | reading a rendered number back gives the number |
| GridLayout.AxisLabel | MetalDetector/src/org/siriusnet/metaldetector/GraphView.java:104-107 | the label of row r is its percentage text, ending in "%", placed `labelGap` left of the left margin and half a text size below row r's horizontal line |
| GridLayout.AxisLabelsReadPercent | MetalDetector/src/org/siriusnet/metaldetector/GraphView.java:104-107 | the label of row r reads the number 100 - 10r followed by "%" |
| GridLayout.PercentTexts | MetalDetector/src/org/siriusnet/metaldetector/GraphView.java:105 | the percentage texts for rows 0..10 are 100%, 90%, ..., 10%, 0% |
| GridLayout.AxisLabelTexts | MetalDetector/src/org/siriusnet/metaldetector/GraphView.java:104-107 | the label texts top to bottom are 100%, 90%, ..., 10%, 0% |
| GridLayout.DrawRows | MetalDetector/src/org/siriusnet/metaldetector/GraphView.java:97-109 | the first loop stays inside an array of at least 48 floats and leaves the horizontals of rows 0..11 in its first 12 segments, with the 11 labels of rows 0..10 in order |
| GridLayout.DrawColumns | MetalDetector/src/org/siriusnet/metaldetector/GraphView.java:110-116 | the second loop, from offset 44, writes the verticals of columns 0..cols into segments 11..11+cols, in bounds, and keeps segments 0..10 |
| GridLayout.SegmentsDetermineArray | MetalDetector/src/org/siriusnet/metaldetector/GraphView.java:118 | a flat array whose every segment, as `drawLines` reads it, is the corresponding segment of a list is exactly that list's packing |
| GridLayout.DrawGrid | MetalDetector/src/org/siriusnet/metaldetector/GraphView.java:93-116 | every write stays inside the array and the array is exactly filled: it holds the horizontals of rows 0..10 followed by the verticals of columns 0..cols (the row-11 line is overwritten); there are 11 labels, one per row 0..10 |
| GraphGeometry.MoveTo | MetalDetector/src/org/siriusnet/metaldetector/GraphView.java:127-129 | `moveTo` on a new path gives a path whose only vertex is the given point |
| GraphGeometry.LineTo | MetalDetector/src/org/siriusnet/metaldetector/GraphView.java:139-146 | `lineTo` appends exactly one vertex, the given point, and keeps every earlier vertex |
| GraphGeometry.SetLastPoint | MetalDetector/src/org/siriusnet/metaldetector/GraphView.java:142 | `setLastPoint` keeps the length (1 on an empty path), replaces the final vertex and keeps the others |
| GraphGeometry.XPos | MetalDetector/src/org/siriusnet/metaldetector/GraphView.java:131 | column 0 is on the left margin, and every fourth column lands exactly on a vertical grid line, since the grid's column step is four sample steps |
| GraphGeometry.YPos | MetalDetector/src/org/siriusnet/metaldetector/GraphView.java:132-137 | `baseline - sample * (baseline / 100)` in Java `int` arithmetic: always an `int`; the exact difference when nothing wraps; a zero sample lands on the baseline; with a baseline that is a non-negative `int`, a sample in [0,100] lands between the canvas top and the baseline |
| GraphGeometry.ColumnCount | MetalDetector/src/org/siriusnet/metaldetector/GraphView.java:130 | N = graphWidth/xWidth + 1 is at least 1 and the columns' span (N-1)*xWidth fits in graphWidth with less than one step to spare |
| GraphGeometry.Curve | MetalDetector/src/org/siriusnet/metaldetector/GraphView.java:130-137 | the curve has one point per column |
| GraphGeometry.YPosScale | MetalDetector/src/org/siriusnet/metaldetector/GraphView.java:132-137 | on a baseline graphHeight+yMarginTop that is an `int`: sample 0 maps to the baseline; samples in [0,100] cause no wrap-around and map into [0, baseline]; sample 100 maps to baseline % 100; among samples that cause no wrap-around, y is non-increasing in the sample |
| GraphGeometry.YPosWrapsAround | MetalDetector/src/org/siriusnet/metaldetector/GraphView.java:132-137 | with baseline 1000, a sample of 3*10^8 wraps around: y is 1294968296, below where a zero sample lands |
| GraphGeometry.XPosSpan | MetalDetector/src/org/siriusnet/metaldetector/GraphView.java:130-131 | x-coordinates start at xMarginLeft, strictly increase, stay within [xMarginLeft, xMarginLeft+graphWidth], and the last is less than one step from the right edge |
| GraphGeometry.CurveInsideFrame | MetalDetector/src/org/siriusnet/metaldetector/GraphView.java:130-137 | with all samples in [0,100] and the baseline an `int`, every curve point lies between the left margin and the right edge, and between the canvas top and the baseline |
| GraphGeometry.CurvePoint | MetalDetector/src/org/siriusnet/metaldetector/GraphView.java:130-137 | curve point x is (x·xWidth + xMarginLeft, the wrapped y of the sample at the column's ring index), that index lying inside the 750-slot buffer |
| GraphGeometry.DrawGraph | MetalDetector/src/org/siriusnet/metaldetector/GraphView.java:123-150 | the line path has exactly N vertices; for N >= 2 it starts at the baseline point (xMarginLeft, baseline), skips the column N-2 point and ends exactly at the column N-1 point; for N = 1 it is only the column 0 point; the surface path has N+2 vertices, the N column points between two points half a stroke below the baseline at the left margin and at the right edge |
| GraphView.NewView | MetalDetector/src/org/siriusnet/metaldetector/GraphView.java:45-55 | the view starts with value 0, the default step 5 and a zero-filled ring whose cursor is 0 |
| GraphView.SetYValue | MetalDetector/src/org/siriusnet/metaldetector/GraphView.java:176-178 | `setYValue` stores the given value as is, without clamping, and leaves the step and the ring alone |
| GraphView.SetXWidth | MetalDetector/src/org/siriusnet/metaldetector/GraphView.java:224-226 | `setxWidth` stores the given step as is, without applying the min/max widths, and leaves the value and the ring alone |
| GraphView.TimerTick | MetalDetector/src/org/siriusnet/metaldetector/GraphView.java:228-235 | a tick keeps the value and the step, writes exactly one ring slot, the one at `start % 750`, leaves every other slot unchanged, and the newest column of every window then shows the current value |
| SampleRing.TickScrollsWindow | MetalDetector/src/org/siriusnet/metaldetector/GraphView.java:130-137 | from any valid ring, one tick scrolls every window by one column: column x then shows what column x+1 showed, and the newest column shows the value written |
| GraphView.SetValueIsNotClamped | MetalDetector/src/org/siriusnet/metaldetector/GraphView.java:176-178 | any value set, inside [0,100] or not, appears unchanged in the newest column after the next tick |
| GraphView.TickKeepsRange | MetalDetector/src/org/siriusnet/metaldetector/GraphView.java:232-235 | with all samples and the current value in [0,100], all samples stay in [0,100] after a tick |
| GraphView.Draw | MetalDetector/src/org/siriusnet/metaldetector/GraphView.java:85-121 | if the layout throws, the draw pass throws the same exception; otherwise it hands `drawLines` exactly the packed grid segments and draws the 11 row labels; the line path is the baseline point, the curve points of columns 0..N-3 and the newest column's point (only the column 0 point when N = 1); the surface path is the curve between two points half a stroke below the baseline at the left margin and at the right edge |
| MetalDetectorFragment.ISqrt | MetalDetector/src/org/siriusnet/metaldetector/MetalDetectorFragment.java:72 | the floor square root: r*r <= n < (r+1)*(r+1) |
| MetalDetectorFragment.ISqrtUnique | MetalDetector/src/org/siriusnet/metaldetector/MetalDetectorFragment.java:72 | the floor square root is the only r with r*r <= n < (r+1)*(r+1) |
| MetalDetectorFragment.ISqrtMonotone | MetalDetector/src/org/siriusnet/metaldetector/MetalDetectorFragment.java:72 | floor square root is monotone |
| MetalDetectorFragment.SqrtToInt | MetalDetector/src/org/siriusnet/metaldetector/MetalDetectorFragment.java:72 | `(int) Math.sqrt(n)` is never negative, is the floor square root for n >= 0 and 0 for negative n (NaN casts to 0) |
| MetalDetectorFragment.SquareSum | MetalDetector/src/org/siriusnet/metaldetector/MetalDetectorFragment.java:72 | the `int` sum of squares is an `int` congruent to the true squared magnitude mod 2^32, and equal to it whenever that fits |
| MetalDetectorFragment.SetGeomagneticFieldStrength | MetalDetector/src/org/siriusnet/metaldetector/MetalDetectorFragment.java:71-80 | the forwarded value is always in [0,100]; without overflow it is min(isqrt(x*x+y*y+z*z), 100); a tone is requested iff the value is above 50 |
| MetalDetectorFragment.NormalisedInputsDoNotOverflow | MetalDetector/src/org/siriusnet/metaldetector/MetalDetectorFragment.java:72 | components in [0,100], the sensor controller's output range, cause no overflow, and the value is min(isqrt(x*x+y*y+z*z), 100) |
| MetalDetectorFragment.SaturatesAtFullScale | MetalDetector/src/org/siriusnet/metaldetector/MetalDetectorFragment.java:72-75 | whenever x*x+y*y+z*z >= 100*100 (without overflow) the value is exactly 100 |
| MetalDetectorFragment.MonotoneInSquares | MetalDetector/src/org/siriusnet/metaldetector/MetalDetectorFragment.java:72-75 | without overflow the value is non-decreasing in each component's square |
| MetalDetectorFragment.OverflowGivesZero | MetalDetector/src/org/siriusnet/metaldetector/MetalDetectorFragment.java:72 | outside that range a component of 46341 overflows the square to a negative `int` and the value drops to 0 with no tone |
| MetalDetectorFragment.ForwardToGraph | MetalDetector/src/org/siriusnet/metaldetector/MetalDetectorFragment.java:76-79 | the graph's current value becomes the capped magnitude whether or not a tone fires; the ring and step are untouched; the tone flag is value > 50 |
| MetalDetectorFragment.ReadingReachesGraph | MetalDetector/src/org/siriusnet/metaldetector/MetalDetectorFragment.java:79 | a reading followed by a timer tick shows its capped magnitude in the newest column and keeps every sample in [0,100] |

## Left out

- The `java.util.Timer` schedule, `post`/`invalidate`, and the race between the sensor callback and the timer thread. A tick is one atomic step on an immutable state.
- `Paint`, `Color`, `Typeface` and canvas setup. Display-derived sizes from `convertDpToPx` (padding, half stroke width, label text size, label gap) are taken as non-negative integer pixel inputs.
- The coordinates are `float` in the source. Every value they hold is an `int`, so they are modelled as integers, and float exactness above 2^24 is not modelled. Two `int` products take operands from setters that accept any `int`, so they are computed with wrap-around: the column step `xWidth * 4` (`GridLayout.ComputeLayout`, which yields the exception when `draw` throws) and the sample times the y-scale (`GraphGeometry.YPos`). The remaining pixel sums and products are built from the canvas size, the padding and the text size alone. They are kept exact, since realistic canvas sizes are far below the `int` bounds.
- Canvas output made before an exception is not modelled. When the column count is negative, `draw` throws in the first grid loop after drawing some labels; the model yields only the exception.
- GraphGeometry.YPosScale: monotonicity is promised only among samples that cause no wrap-around (`ScaleFits`), and the other facts only for a baseline that is an `int`. Beyond that, the wrapped y-coordinate is not monotone (`GraphGeometry.YPosWrapsAround`).
- GraphGeometry.CurveInsideFrame: requires the baseline to be an `int`. A larger baseline would itself wrap in the source, which the model's exact canvas arithmetic does not follow.
- Getters and setters whose fields drawing never reads: `minY`, `maxY`, `graphForeground`, `gridColor`, `defaultXWidth`, `minXWidth`, `maxXWidth`, and the line colour. `setYValue` and `setxWidth` are modelled as `GraphView.SetYValue` and `GraphView.SetXWidth`.
- Path contours. Each path is built from a single `moveTo` on a new path, so a path is modelled as the sequence of its vertices. The drawing of paths and text on the canvas is not modelled.
- JavaInt.Rem: for a negative dividend the contract states only the sign and bound of the result, not its exact value.
- Fragment lifecycle, sensor registration, `ToneGenerator` calls and exception logging. The tone is modelled as a boolean request.
- `setVectorValue` and the sensor controller's float arithmetic (`normalizeValue`, `getVectorValue`). Only the controller's [0, 100] output range is used, as the hypothesis of `MetalDetectorFragment.NormalisedInputsDoNotOverflow`.
- The activity's copy of `setGeomagneticFieldStrength` (MetalDetectorActivity.java:62-71) computes the same value and tone condition as the fragment's and is not modelled separately. Its `generateTone` (MetalDetectorActivity.java:78-81) has no try/catch, though. A `RuntimeException` from the tone generator there escapes before `setYValue` runs, so `MetalDetectorFragment.ForwardToGraph`'s promise that the value is forwarded whether or not a tone fires holds for the fragment only.
- `(int) Math.sqrt` is taken to be the exact floor square root for non-negative `int` arguments, because doubles represent every `int` exactly and the square root is correctly rounded.

=== FILE: Arith.dfy ===
/** Small facts about multiplication that the solver does not find on its own. */
module Arith {

  lemma MulLeft(a: int, b: int, c: int)
    requires a <= b && 0 <= c
    ensures a * c <= b * c
  {
  }

  lemma MulStrict(a: int, b: int, c: int)
    requires a < b && 0 < c
    ensures a * c < b * c
  {
  }
}

=== FILE: GraphGeometry.dfy ===
/**
 The curve part of the graph view's draw pass: the ring's most recent samples
 mapped to screen points, collected into a stroked line path and a filled
 surface path. A path is the sequence of its vertices.
 */
module GraphGeometry {
  import Arith
  import JavaInt
  import SampleRing
  import opened GridLayout

  datatype Point = Point(x: int, y: int)

  type Path = seq<Point>

  /** `moveTo` on a new path: the path's first vertex. */
  function MoveTo(p: Point): (path: Path)
    ensures |path| == 1 && path[0] == p
  {
    [p]
  }

  /** `lineTo`: one more vertex at the end; the earlier vertices are kept. */
  function LineTo(path: Path, p: Point): (path': Path)
    ensures |path'| == |path| + 1
    ensures path'[|path|] == p
    ensures forall i :: 0 <= i < |path| ==> path'[i] == path[i]
  {
    path + [p]
  }

  /** `setLastPoint`: the final vertex is replaced by `p`; on an empty path it
      acts as a `moveTo`. */
  function SetLastPoint(path: Path, p: Point): (path': Path)
    ensures |path'| == if |path| == 0 then 1 else |path|
    ensures path'[|path'| - 1] == p
    ensures forall i :: 0 <= i < |path'| - 1 ==> path'[i] == path[i]
  {
    if |path| == 0 then [p] else path[..|path| - 1] + [p]
  }

  /** The number of sample columns drawn: `graphWidth / xWidth + 1`. */
  function ColumnCount(l: Layout): (n: int)
    requires l.Valid()
    ensures 1 <= n
    ensures (n - 1) * l.xWidth <= l.graphWidth < n * l.xWidth
  {
    var n := l.graphWidth / l.xWidth + 1;
    assert l.graphWidth == (n - 1) * l.xWidth + l.graphWidth % l.xWidth;
    n
  }

  /** The y-coordinate of a zero sample: `graphHeight + yMarginTop`. */
  function Baseline(l: Layout): int {
    l.graphHeight + l.yMarginTop
  }

  /** Screen x of column `x`: column 0 on the left margin, and every fourth
      column on a vertical grid line, since the grid's column step is four
      sample steps. */
  function XPos(l: Layout, x: int): (px: int)
    ensures x == 0 ==> px == l.xMarginLeft
    ensures l.colWidth == 4 * l.xWidth && x % 4 == 0 ==> px == Vertical(l, x / 4).x1
  {
    var q := x / 4;
    assert x % 4 == 0 ==> x * l.xWidth == q * (4 * l.xWidth) by {
      if x % 4 == 0 {
        assert x == 4 * q;
      }
    }
    x * l.xWidth + l.xMarginLeft
  }

  /** The sample scale: the integer quotient `Baseline / 100`. */
  function Scale(l: Layout): int {
    Baseline(l) / 100
  }

  /** True iff the baseline, a sample's product with the scale, and the
      difference of the two are all Java `int`s, so that no step of the
      y-coordinate's computation wraps around. */
  predicate ScaleFits(l: Layout, v: int) {
    && JavaInt.IsInt(Baseline(l))
    && JavaInt.IsInt(v * Scale(l))
    && JavaInt.IsInt(Baseline(l) - v * Scale(l))
  }

  /** Screen y of a sample value: the baseline minus the value times the
      scale, in Java `int` arithmetic. Without wrap-around it is the exact
      difference; zero lands on the baseline and, for a baseline that is a
      non-negative `int`, a value in [0, 100] lands between the canvas top and
      the baseline. */
  function YPos(l: Layout, v: int): (py: int)
    ensures JavaInt.IsInt(py)
    ensures ScaleFits(l, v) ==> py == Baseline(l) - v * Scale(l)
    ensures v == 0 && JavaInt.IsInt(Baseline(l)) ==> py == Baseline(l)
    ensures 0 <= Baseline(l) <= JavaInt.MaxInt && 0 <= v <= 100 ==> 0 <= py <= Baseline(l)
  {
    var q := Scale(l);
    assert 0 <= Baseline(l) <= JavaInt.MaxInt && 0 <= v <= 100 ==> 0 <= v * q <= Baseline(l) by {
      if 0 <= Baseline(l) <= JavaInt.MaxInt && 0 <= v <= 100 {
        assert Baseline(l) == 100 * q + Baseline(l) % 100;
        Arith.MulLeft(v, 100, q);
        Arith.MulLeft(0, v, q);
      }
    }
    JavaInt.Wrap(Baseline(l) - JavaInt.Wrap(v * q))
  }

  /** The screen point of column `x` for the window `w` of samples. */
  function ColumnPoint(l: Layout, w: seq<int>, x: int): Point
    requires 0 <= x < |w|
  {
    Point(XPos(l, x), YPos(l, w[x]))
  }

  /** The screen points of every column, left to right. */
  function ColumnPoints(l: Layout, w: seq<int>): (pts: seq<Point>)
    ensures |pts| == |w|
  {
    seq(|w|, x requires 0 <= x < |w| => ColumnPoint(l, w, x))
  }

  /** The points the curve is drawn through: the window of the latest
      `ColumnCount(l)` samples, oldest at the left. */
  function Curve(l: Layout, r: SampleRing.Ring): (pts: seq<Point>)
    requires l.Valid() && r.Valid() && ColumnCount(l) <= SampleRing.Capacity
    ensures |pts| == ColumnCount(l)
  {
    ColumnPoints(l, SampleRing.Window(r, ColumnCount(l)))
  }

  /** The sample scale on a baseline that is a Java `int`: zero lands on the
      baseline; a sample in [0, 100] causes no wrap-around and lands between
      the canvas top and the baseline; a full-scale sample lands
      `Baseline % 100` pixels from the top, wherever the grid's top line is;
      and among samples that cause no wrap-around, larger ones are drawn no
      lower. */
  lemma YPosScale(l: Layout, v: int, v': int)
    requires l.Valid()
    ensures JavaInt.IsInt(Baseline(l)) ==> YPos(l, 0) == Baseline(l)
    ensures Baseline(l) <= JavaInt.MaxInt && 0 <= v <= 100 ==>
      ScaleFits(l, v) && 0 <= YPos(l, v) <= Baseline(l)
    ensures Baseline(l) <= JavaInt.MaxInt ==> YPos(l, 100) == Baseline(l) % 100
    ensures ScaleFits(l, v) && ScaleFits(l, v') && v <= v' ==> YPos(l, v') <= YPos(l, v)
  {
    var q := Scale(l);
    assert Baseline(l) == 100 * q + Baseline(l) % 100;
    if v <= v' {
      Arith.MulLeft(v, v', q);
    }
    if 0 <= v <= 100 {
      Arith.MulLeft(v, 100, q);
      Arith.MulLeft(0, v, q);
    }
  }

  /** A sample far outside [0, 100] wraps around. With a baseline of 1000 the
      scale is 10, and a sample of 3 * 10^8 gives the product 3 * 10^9, which
      wraps to a negative `int`: the `int` y-coordinate is 1294968296, far
      below the baseline where a zero sample lands (its `float` store, which
      rounds it, is not modelled). */
  lemma YPosWrapsAround()
    ensures var l := Layout(5, 1000, 996, 30, 4, 99, 20, 50);
      && l.Valid() && Baseline(l) == 1000
      && !ScaleFits(l, 300_000_000)
      && YPos(l, 300_000_000) == 1_294_968_296
      && YPos(l, 0) < YPos(l, 300_000_000)
  {
  }

  /** The columns march strictly rightwards, the first on the left margin and
      the last within one sample step of the grid's right edge. */
  lemma XPosSpan(l: Layout, x: int, x': int)
    requires l.Valid()
    ensures XPos(l, 0) == l.xMarginLeft
    ensures x < x' ==> XPos(l, x) < XPos(l, x')
    ensures 0 <= x < ColumnCount(l) ==> l.xMarginLeft <= XPos(l, x) <= l.xMarginLeft + l.graphWidth
    ensures l.xMarginLeft + l.graphWidth - l.xWidth < XPos(l, ColumnCount(l) - 1)
  {
    var n := ColumnCount(l);
    if x < x' {
      Arith.MulStrict(x, x', l.xWidth);
    }
    if 0 <= x < n {
      Arith.MulLeft(x, n - 1, l.xWidth);
      Arith.MulLeft(0, x, l.xWidth);
    }
  }

  /** With every sample in [0, 100] and a baseline that is a Java `int`, the
      whole curve lies between the left margin and the grid's right edge, and
      between the canvas top and the baseline. */
  lemma CurveInsideFrame(l: Layout, r: SampleRing.Ring)
    requires l.Valid() && r.Valid() && ColumnCount(l) <= SampleRing.Capacity
    requires SampleRing.SamplesInRange(r) && Baseline(l) <= JavaInt.MaxInt
    ensures forall x :: 0 <= x < ColumnCount(l) ==>
      && l.xMarginLeft <= Curve(l, r)[x].x <= l.xMarginLeft + l.graphWidth
      && 0 <= Curve(l, r)[x].y <= Baseline(l)
  {
    var n := ColumnCount(l);
    var pts := Curve(l, r);
    var w := SampleRing.Window(r, n);
    forall x | 0 <= x < n
      ensures l.xMarginLeft <= pts[x].x <= l.xMarginLeft + l.graphWidth
      ensures 0 <= pts[x].y <= Baseline(l)
    {
      XPosSpan(l, x, x);
      assert w[x] == r.buffer[SampleRing.ColumnIndex(r.start, x, n)];
      YPosScale(l, w[x], w[x]);
    }
  }

  /** Curve point `x` as the drawing loop computes it: the column's x, and
      the wrapped y of the sample read at the column's ring index. */
  lemma CurvePoint(l: Layout, r: SampleRing.Ring, x: int)
    requires l.Valid() && r.Valid() && ColumnCount(l) <= SampleRing.Capacity
    requires 0 <= x < ColumnCount(l)
    ensures var i := SampleRing.ColumnIndex(r.start, x, ColumnCount(l));
      0 <= i < SampleRing.Capacity
      && Curve(l, r)[x] == Point(x * l.xWidth + l.xMarginLeft,
                                 JavaInt.Wrap(l.graphHeight + l.yMarginTop
                                   - JavaInt.Wrap(r.buffer[i] * ((l.graphHeight + l.yMarginTop) / 100))))
  {
    var w := SampleRing.Window(r, ColumnCount(l));
    assert Curve(l, r)[x] == ColumnPoint(l, w, x);
  }

  /** `drawGraph`: the line path starts at the baseline point on the left
      margin and takes a vertex per column, except that the last column's
      vertex replaces the one before it (`setLastPoint`); the surface path
      starts half a stroke below the baseline, takes every column's vertex and
      ends half a stroke below the baseline at the grid's right edge. */
  method DrawGraph(l: Layout, halfStrokePx: int, r: SampleRing.Ring)
    returns (line: Path, surface: Path)
    requires l.Valid() && r.Valid() && ColumnCount(l) <= SampleRing.Capacity
    ensures var n := ColumnCount(l); var pts := Curve(l, r);
      && |line| == n
      && line[n - 1] == pts[n - 1]
      && (n >= 2 ==> line == [Point(l.xMarginLeft, Baseline(l))] + pts[..n - 2] + [pts[n - 1]])
      && (n == 1 ==> line == [pts[0]])
    ensures surface == [Point(l.xMarginLeft, Baseline(l) + halfStrokePx)] + Curve(l, r)
                       + [Point(l.xMarginLeft + l.graphWidth, Baseline(l) + halfStrokePx)]
  {
    var n := l.graphWidth / l.xWidth + 1;
    ghost var pts := Curve(l, r);
    var head := Point(l.xMarginLeft, l.graphHeight + l.yMarginTop);
    line := MoveTo(head);
    surface := MoveTo(Point(l.xMarginLeft, l.graphHeight + l.yMarginTop + halfStrokePx));
    var x := 0;
    while n > x
      invariant 0 <= x <= n
      invariant surface == [Point(l.xMarginLeft, Baseline(l) + halfStrokePx)] + pts[..x]
      invariant x < n ==> line == [head] + pts[..x]
      invariant x == n && n >= 2 ==> line == [head] + pts[..n - 2] + [pts[n - 1]]
      invariant x == n && n == 1 ==> line == [pts[0]]
    {
      var xPos := x * l.xWidth + l.xMarginLeft;
      var i := SampleRing.ColumnIndex(r.start, x, n);
      var yPos := JavaInt.Wrap(l.graphHeight + l.yMarginTop
                               - JavaInt.Wrap(r.buffer[i] * ((l.graphHeight + l.yMarginTop) / 100)));
      CurvePoint(l, r, x);
      assert Point(xPos, yPos) == pts[x];
      if x + 1 < n {
        line := LineTo(line, Point(xPos, yPos));
        surface := LineTo(surface, Point(xPos, yPos));
      } else {
        line := SetLastPoint(line, Point(xPos, yPos));
        surface := LineTo(surface, Point(xPos, yPos));
      }
      assert pts[..x + 1] == pts[..x] + [pts[x]];
      x := x + 1;
    }
    assert pts[..n] == pts;
    surface := LineTo(surface, Point(l.graphWidth + l.xMarginLeft, l.graphHeight + l.yMarginTop + halfStrokePx));
  }
}

=== FILE: GraphView.dfy ===
/**
 The graph view's state as the drawing and the timer see it: the current value
 `y` set from outside, the sample step `xWidth`, and the sample ring; and one
 full draw pass over it.
 */
module GraphView {
  import JavaInt
  import SampleRing
  import opened GridLayout
  import opened GraphGeometry

  /** The width the view starts with (`defaultXWidth`). */
  const DefaultXWidth: int := 5

  datatype View = View(y: int, xWidth: int, ring: SampleRing.Ring)

  /** The view as constructed: current value 0, default step, empty ring. */
  function NewView(): (v: View)
    ensures v.ring.Valid() && v.ring.start == 0 && v.xWidth == DefaultXWidth && v.y == 0
    ensures forall i :: 0 <= i < SampleRing.Capacity ==> v.ring.buffer[i] == 0
  {
    View(0, DefaultXWidth, SampleRing.Empty())
  }

  /** `setYValue`: stores the value as given, with no clamping; the step and
      the ring are untouched. */
  function SetYValue(v: View, y: int): (v': View)
    ensures v'.y == y && v'.xWidth == v.xWidth && v'.ring == v.ring
  {
    v.(y := y)
  }

  /** `setxWidth`: stores the step as given, without applying the min/max
      widths; the value and the ring are untouched. */
  function SetXWidth(v: View, xWidth: int): (v': View)
    ensures v'.xWidth == xWidth && v'.y == v.y && v'.ring == v.ring
  {
    v.(xWidth := xWidth)
  }

  /** One timer tick: the current value enters the ring in the one slot at the
      cursor, every other slot is kept; the value and the step are left alone,
      and the newest column of any window now shows the value. */
  function TimerTick(v: View): (v': View)
    requires v.ring.Valid()
    ensures v'.ring.Valid() && v'.y == v.y && v'.xWidth == v.xWidth
    ensures v'.ring.start - 1 == v.ring.start % SampleRing.Capacity
    ensures forall i :: 0 <= i < SampleRing.Capacity && i != v'.ring.start - 1 ==>
      v'.ring.buffer[i] == v.ring.buffer[i]
    ensures forall n :: 1 <= n <= SampleRing.Capacity ==> SampleRing.Window(v'.ring, n)[n - 1] == v.y
  {
    var v' := v.(ring := SampleRing.Tick(v.ring, v.y));
    forall n | 1 <= n <= SampleRing.Capacity
      ensures SampleRing.Window(v'.ring, n)[n - 1] == v.y
    {
      SampleRing.ColumnIndexIsAge(v'.ring.start, n - 1, n);
    }
    v'
  }

  /** Any value set reaches the ring unchanged at the next tick, including
      values outside [0, 100]: the view itself does not clamp. */
  lemma SetValueIsNotClamped(v: View, y: int, n: int)
    requires v.ring.Valid() && 1 <= n <= SampleRing.Capacity
    ensures SampleRing.Window(TimerTick(SetYValue(v, y)).ring, n)[n - 1] == y
    ensures TimerTick(SetYValue(v, y)).y == y
  {
  }

  /** Ticking with a current value in [0, 100] keeps every slot in [0, 100]. */
  lemma TickKeepsRange(v: View)
    requires v.ring.Valid() && SampleRing.SamplesInRange(v.ring) && 0 <= v.y <= 100
    ensures SampleRing.SamplesInRange(TimerTick(v).ring)
  {
  }

  /** Everything one draw pass hands to the canvas. In drawing order: the
      labels (drawn inside the loop that builds the grid), the grid segments
      in one batch, the filled surface, and the stroked line. */
  datatype Frame = Frame(gridPoints: seq<int>, labels: seq<Label>, surface: Path, line: Path)

  /** `draw`: lays out the grid for the canvas, draws it with its labels, then
      the curve through the latest samples; or throws, as the layout does. The
      display-derived pixel sizes are parameters. */
  method Draw(v: View, canvasWidth: int, canvasHeight: int, paddingPx: int,
              textSizePx: int, labelGapPx: int, halfStrokePx: int)
    returns (res: JavaInt.Outcome<Frame>)
    requires v.ring.Valid() && v.xWidth > 0
    requires paddingPx >= 0 && textSizePx >= 0
    requires canvasWidth >= 2 * paddingPx && canvasHeight >= 2 * paddingPx
    requires (canvasWidth - 2 * paddingPx) / v.xWidth + 1 <= SampleRing.Capacity
    ensures var lr := ComputeLayout(canvasWidth, canvasHeight, paddingPx, textSizePx, v.xWidth);
      lr.Throws? ==> res == JavaInt.Throws(lr.exception)
    ensures var lr := ComputeLayout(canvasWidth, canvasHeight, paddingPx, textSizePx, v.xWidth);
      lr.Returns? ==> var l := lr.value;
      && res.Returns?
      && |res.value.gridPoints| == 4 * (Rows + l.cols + 2)
      && res.value.gridPoints == Flatten(GridSegments(l))
      && Unflatten(res.value.gridPoints) == GridSegments(l)
      && |res.value.labels| == Rows + 1
      && (forall row :: 0 <= row <= Rows ==> res.value.labels[row] == AxisLabel(l, textSizePx, labelGapPx, row))
    ensures var lr := ComputeLayout(canvasWidth, canvasHeight, paddingPx, textSizePx, v.xWidth);
      lr.Returns? ==> var l := lr.value;
      var n := ColumnCount(l); var pts := Curve(l, v.ring); var f := res.value;
      && |f.line| == n
      && f.line[n - 1] == pts[n - 1]
      && (n >= 2 ==> f.line == [Point(l.xMarginLeft, Baseline(l))] + pts[..n - 2] + [pts[n - 1]])
      && (n == 1 ==> f.line == [pts[0]])
      && f.surface == [Point(l.xMarginLeft, Baseline(l) + halfStrokePx)] + pts
                      + [Point(l.xMarginLeft + l.graphWidth, Baseline(l) + halfStrokePx)]
  {
    var lr := ComputeLayout(canvasWidth, canvasHeight, paddingPx, textSizePx, v.xWidth);
    if lr.Throws? {
      return JavaInt.Throws(lr.exception);
    }
    var l := lr.value;
    var gridPoints, labels := DrawGrid(l, textSizePx, labelGapPx);
    UnflattenFlatten(GridSegments(l));
    var line, surface := DrawGraph(l, halfStrokePx, v.ring);
    res := JavaInt.Returns(Frame(gridPoints, labels, surface, line));
  }
}

=== FILE: GridLayout.dfy ===
/**
 The background grid of the graph view: the layout derived from the canvas size
 on each draw pass, the flat array of line segments handed to the canvas in one
 batch, and the percentage labels on the left of the horizontal lines.
 */
module GridLayout {
  import Arith
  import JavaInt

  /** The number of row bands; the grid has `Rows + 1` horizontal lines. */
  const Rows: int := 10

  /** The per-draw geometry. `xWidth` is the pixel step between two samples,
      `colWidth` the step between two vertical grid lines: `xWidth * 4` in
      Java `int` arithmetic, so it wraps around for a step of 2^29 or more. */
  datatype Layout = Layout(
    xWidth: int,
    graphWidth: int,
    graphHeight: int,
    xMarginLeft: int,
    yMarginTop: int,
    rowHeight: int,
    colWidth: int,
    cols: int)
  {
    /** What a layout that was computed without throwing satisfies:
        non-negative sizes, the row step as the integer quotient it is, and a
        non-zero column step with a non-negative column count. A wrapped,
        negative column step leaves a single vertical line. */
    predicate Valid() {
      && xWidth > 0
      && graphWidth >= 0 && graphHeight >= 0
      && xMarginLeft >= 0 && yMarginTop >= 0
      && rowHeight >= 0 && Rows * rowHeight <= graphHeight < Rows * (rowHeight + 1)
      && colWidth == JavaInt.Wrap(4 * xWidth) && colWidth != 0
      && cols >= 0
      && (colWidth > 0 ==> cols * colWidth <= graphWidth < (cols + 1) * colWidth)
      && (colWidth < 0 ==> cols == 0 && graphWidth < -colWidth)
    }
  }

  /** The column count `graphWidth / colWidth` and the allocation and first
      loop of the grid array it sizes: dividing by zero throws; a negative
      count makes the array of `(Rows + cols + 2) * 4` floats negative in size,
      or too short for the Rows + 2 lines the first loop writes. */
  function GridColumns(graphWidth: int, colWidth: int): (res: JavaInt.Outcome<int>)
    requires graphWidth >= 0
    ensures res.Returns? ==> var cols := res.value;
      && cols >= 0
      && (colWidth > 0 ==> cols * colWidth <= graphWidth < (cols + 1) * colWidth)
      && (colWidth < 0 ==> cols == 0 && graphWidth < -colWidth)
    ensures res == JavaInt.Throws(JavaInt.ArithmeticException) <==> colWidth == 0
    ensures res == JavaInt.Throws(JavaInt.NegativeArraySizeException) <==>
      colWidth < 0 && graphWidth >= 13 * -colWidth
    ensures res == JavaInt.Throws(JavaInt.ArrayIndexOutOfBoundsException) <==>
      colWidth < 0 && -colWidth <= graphWidth < 13 * -colWidth
    ensures res.Throws? <==> colWidth == 0 || (colWidth < 0 && graphWidth >= -colWidth)
  {
    if colWidth == 0 then JavaInt.Throws(JavaInt.ArithmeticException)
    else
      var cols := JavaInt.Div(graphWidth, colWidth);
      assert colWidth > 0 ==> graphWidth == cols * colWidth + graphWidth % colWidth;
      assert colWidth < 0 ==> (cols <= -13 <==> graphWidth >= 13 * -colWidth) by {
        if colWidth < 0 {
          var c := -colWidth;
          assert cols * colWidth == -cols * c;
          if cols <= -13 {
            Arith.MulLeft(13, -cols, c);
          } else {
            Arith.MulLeft(-cols + 1, 13, c);
          }
        }
      }
      if Rows + cols + 2 < 0 then JavaInt.Throws(JavaInt.NegativeArraySizeException)
      else if cols < 0 then JavaInt.Throws(JavaInt.ArrayIndexOutOfBoundsException)
      else JavaInt.Returns(cols)
  }

  /** The layout of one draw pass, or the exception `draw` throws before it
      draws anything but labels. The canvas size and the display-derived sizes
      (padding, label text size) are pixel counts; `xWidth` is the view's
      setting, which nothing clamps, so the caller must keep it positive.
      The column step `xWidth * 4` wraps around, and `GridColumns` says when
      the grid it sizes throws. */
  function ComputeLayout(canvasWidth: int, canvasHeight: int, paddingPx: int,
                         textSizePx: int, xWidth: int): (res: JavaInt.Outcome<Layout>)
    requires xWidth > 0 && paddingPx >= 0 && textSizePx >= 0
    requires canvasWidth >= 2 * paddingPx && canvasHeight >= 2 * paddingPx
    ensures res.Returns? ==> var l := res.value;
      && l.Valid() && l.xWidth == xWidth
      && l.xMarginLeft == 2 * paddingPx
      && l.xMarginLeft + l.graphWidth == canvasWidth
      && l.graphHeight + 2 * paddingPx == canvasHeight
      && 2 * l.yMarginTop <= textSizePx < 2 * l.yMarginTop + 2
    ensures 4 * xWidth <= JavaInt.MaxInt ==> res.Returns? && res.value.colWidth == 4 * xWidth
    ensures res == JavaInt.Throws(JavaInt.ArithmeticException) <==> JavaInt.Wrap(4 * xWidth) == 0
    ensures res.Throws? <==>
      || JavaInt.Wrap(4 * xWidth) == 0
      || (JavaInt.Wrap(4 * xWidth) < 0 && canvasWidth - 2 * paddingPx >= -JavaInt.Wrap(4 * xWidth))
  {
    var graphWidth := canvasWidth - 2 * paddingPx;
    var graphHeight := canvasHeight - 2 * paddingPx;
    var colWidth := JavaInt.Wrap(4 * xWidth);
    match GridColumns(graphWidth, colWidth)
    case Throws(e) => JavaInt.Throws(e)
    case Returns(cols) =>
      JavaInt.Returns(Layout(xWidth, graphWidth, graphHeight, paddingPx * 2, textSizePx / 2,
                             graphHeight / Rows, colWidth, cols))
  }

  /** The column step wraps around for huge sample steps. On a 1030 x 1022
      canvas with padding 15: a step of 2^30 makes it 0 and `draw` throws; a
      step of 2^30 + 1 makes it 4, giving 250 grid columns; a step of
      2^30 - 1 makes it -4, and the column count -250 sizes the grid array
      negative; a step of 2^29 makes it -2^31, leaving one vertical line. */
  lemma WrappedColumnStep()
    ensures ComputeLayout(1030, 1022, 15, 16, 0x4000_0000) == JavaInt.Throws(JavaInt.ArithmeticException)
    ensures var res := ComputeLayout(1030, 1022, 15, 16, 0x4000_0001);
      res.Returns? && res.value.colWidth == 4 && res.value.cols == 250
    ensures ComputeLayout(1030, 1022, 15, 16, 0x3fff_ffff) == JavaInt.Throws(JavaInt.NegativeArraySizeException)
    ensures var res := ComputeLayout(1030, 1022, 15, 16, 0x2000_0000);
      res.Returns? && res.value.colWidth == JavaInt.MinInt && res.value.cols == 0
  {
  }

  /** One line of the grid, from (x1, y1) to (x2, y2). */
  datatype Segment = Segment(x1: int, y1: int, x2: int, y2: int)

  /** Coordinate `j` of a segment in the order the canvas reads them. */
  function Coord(s: Segment, j: int): int
    requires 0 <= j < 4
  {
    if j == 0 then s.x1 else if j == 1 then s.y1 else if j == 2 then s.x2 else s.y2
  }

  /** Segments packed four coordinates each, the format of `Canvas.drawLines`. */
  function Flatten(segs: seq<Segment>): (pts: seq<int>)
    ensures |pts| == 4 * |segs|
  {
    seq(4 * |segs|, k requires 0 <= k < 4 * |segs| => Coord(segs[k / 4], k % 4))
  }

  /** How the canvas reads a flat coordinate array back as segments. */
  function Unflatten(pts: seq<int>): (segs: seq<Segment>)
    requires |pts| % 4 == 0
    ensures 4 * |segs| == |pts|
  {
    seq(|pts| / 4, i requires 0 <= i < |pts| / 4 =>
      Segment(pts[4 * i], pts[4 * i + 1], pts[4 * i + 2], pts[4 * i + 3]))
  }

  /** The canvas sees exactly the segments that were packed. */
  lemma UnflattenFlatten(segs: seq<Segment>)
    ensures Unflatten(Flatten(segs)) == segs
  {
    var pts := Flatten(segs);
    assert |pts| / 4 == |segs|;
    forall i | 0 <= i < |segs|
      ensures Unflatten(pts)[i] == segs[i]
    {
      assert (4 * i) / 4 == i && (4 * i + 1) / 4 == i;
      assert (4 * i + 2) / 4 == i && (4 * i + 3) / 4 == i;
    }
  }

  /** Packing the canvas's reading of a flat array gives the array back. */
  lemma FlattenUnflatten(pts: seq<int>)
    requires |pts| % 4 == 0
    ensures Flatten(Unflatten(pts)) == pts
  {
    var segs := Unflatten(pts);
    forall k | 0 <= k < |pts|
      ensures Flatten(segs)[k] == pts[k]
    {
      var i, j := k / 4, k % 4;
      assert k == 4 * i + j;
    }
  }

  /** The full-width horizontal line of row `row` (row 0 is the top). */
  function Horizontal(l: Layout, row: int): Segment {
    var y := l.yMarginTop + row * l.rowHeight;
    Segment(l.xMarginLeft, y, l.xMarginLeft + l.graphWidth, y)
  }

  /** The full-height vertical line of column `col` (column 0 is the left edge). */
  function Vertical(l: Layout, col: int): Segment {
    var x := l.xMarginLeft + col * l.colWidth;
    Segment(x, l.yMarginTop, x, l.yMarginTop + l.graphHeight)
  }

  /** The grid as drawn: the horizontals of rows 0..Rows, then the verticals of
      columns 0..cols. */
  function GridSegments(l: Layout): (segs: seq<Segment>)
    requires l.Valid()
    ensures |segs| == Rows + l.cols + 2
  {
    seq(Rows + 1, row requires 0 <= row <= Rows => Horizontal(l, row))
      + seq(l.cols + 1, col requires 0 <= col <= l.cols => Vertical(l, col))
  }

  /** True iff the segment lies in the graph's box. */
  predicate InBox(l: Layout, s: Segment) {
    && l.xMarginLeft <= s.x1 <= l.xMarginLeft + l.graphWidth
    && l.xMarginLeft <= s.x2 <= l.xMarginLeft + l.graphWidth
    && l.yMarginTop <= s.y1 <= l.yMarginTop + l.graphHeight
    && l.yMarginTop <= s.y2 <= l.yMarginTop + l.graphHeight
  }

  /** Every grid line stays inside the box
      [xMarginLeft, xMarginLeft + graphWidth] x [yMarginTop, yMarginTop + graphHeight]. */
  lemma GridInsideBox(l: Layout)
    requires l.Valid()
    ensures forall s :: s in GridSegments(l) ==> InBox(l, s)
  {
    var segs := GridSegments(l);
    forall i | 0 <= i < |segs|
      ensures InBox(l, segs[i])
    {
      if i <= Rows {
        assert segs[i] == Horizontal(l, i);
        Arith.MulLeft(i, Rows, l.rowHeight);
        assert 0 <= i * l.rowHeight;
      } else {
        var col := i - Rows - 1;
        assert segs[i] == Vertical(l, col);
        if l.colWidth > 0 {
          Arith.MulLeft(col, l.cols, l.colWidth);
          assert 0 <= col * l.colWidth;
        }
      }
    }
  }

  /** The extra horizontal line the first loop writes, one row below the last,
      falls below the box once a row is at least 10 pixels high; it is the line
      the vertical lines overwrite. */
  lemma ExtraRowOutsideBox(l: Layout)
    requires l.Valid() && l.graphHeight >= 10 * Rows
    ensures !InBox(l, Horizontal(l, Rows + 1))
  {
    if l.rowHeight < 10 {
      Arith.MulStrict(l.rowHeight + 1, 10, Rows);
    }
  }

  /** A `%` label at the left of a horizontal line. */
  datatype Label = Label(text: string, x: int, y: int)

  /** The decimal digit character for `d`. */
  function Digit(d: int): (c: char)
    requires 0 <= d < 10
    ensures '0' <= c <= '9' && (c - '0') as int == d
  {
    ('0' as int + d) as char
  }

  /** Java's decimal rendering of a non-negative `int`, as used by string `+`. */
  function DecimalString(n: nat): (s: string)
    ensures |s| >= 1
    ensures forall i :: 0 <= i < |s| ==> '0' <= s[i] <= '9'
    ensures |s| > 1 ==> s[0] != '0'
  {
    if n < 10 then [Digit(n)] else DecimalString(n / 10) + [Digit(n % 10)]
  }

  /** The number a string of decimal digits denotes. */
  function DecimalValue(s: string): nat
    requires forall i :: 0 <= i < |s| ==> '0' <= s[i] <= '9'
  {
    if s == [] then 0 else 10 * DecimalValue(s[..|s| - 1]) + (s[|s| - 1] - '0') as int
  }

  /** Reading a rendered number back gives the number. */
  lemma {:induction false} DecimalRoundTrip(n: nat)
    ensures DecimalValue(DecimalString(n)) == n
  {
    if n >= 10 {
      DecimalRoundTrip(n / 10);
      var s := DecimalString(n);
      assert s[..|s| - 1] == DecimalString(n / 10);
    }
  }

  /** The text of row `row`'s label: `100 - row*10` followed by "%". */
  function PercentText(row: int): string
    requires 0 <= row <= Rows
  {
    DecimalString(100 - row * 10) + "%"
  }

  /** The label of row `row`: its percentage text, right aligned `labelGapPx`
      left of the grid and dropped by half the text size below its row's
      horizontal line. */
  function AxisLabel(l: Layout, textSizePx: int, labelGapPx: int, row: int): (lab: Label)
    requires 0 <= row <= Rows
    ensures lab.text == PercentText(row)
    ensures |lab.text| >= 2 && lab.text[|lab.text| - 1] == '%'
    ensures lab.x == l.xMarginLeft - labelGapPx
    ensures lab.y == textSizePx / 2 + Horizontal(l, row).y1
  {
    Label(PercentText(row), l.xMarginLeft - labelGapPx,
          textSizePx / 2 + l.yMarginTop + row * l.rowHeight)
  }

  /** Labels read 100%, 90%, ..., 0% from the top row down. */
  lemma AxisLabelsReadPercent(l: Layout, textSizePx: int, labelGapPx: int, row: int)
    requires 0 <= row <= Rows
    ensures var t := AxisLabel(l, textSizePx, labelGapPx, row).text;
      && |t| >= 2 && t[|t| - 1] == '%'
      && DecimalValue(t[..|t| - 1]) == 100 - 10 * row
  {
    var n := 100 - row * 10;
    var d := DecimalString(n);
    var t := AxisLabel(l, textSizePx, labelGapPx, row).text;
    assert t == d + "%";
    DecimalRoundTrip(n);
    assert t[..|t| - 1] == d;
  }

  /** The percentage texts, top to bottom, spelled out. */
  lemma PercentTexts()
    ensures seq(Rows + 1, row requires 0 <= row <= Rows => PercentText(row))
         == ["100%", "90%", "80%", "70%", "60%", "50%", "40%", "30%", "20%", "10%", "0%"]
  {
    var texts := seq(Rows + 1, row requires 0 <= row <= Rows => PercentText(row));
    forall row | 1 <= row < Rows
      ensures texts[row] == [Digit(10 - row), '0', '%']
    {
      var n := 100 - row * 10;
      assert n / 10 == 10 - row && n % 10 == 0;
      assert DecimalString(n) == [Digit(10 - row), Digit(0)];
    }
    assert DecimalString(100) == DecimalString(10) + [Digit(0)];
    assert texts[0] == "100%";
    assert texts[1] == "90%" && texts[2] == "80%" && texts[3] == "70%";
    assert texts[4] == "60%" && texts[5] == "50%" && texts[6] == "40%";
    assert texts[7] == "30%" && texts[8] == "20%" && texts[9] == "10%";
    assert texts[10] == "0%";
  }

  /** The label texts, top to bottom, whatever the layout. */
  lemma AxisLabelTexts(l: Layout, textSizePx: int, labelGapPx: int)
    ensures seq(Rows + 1, row requires 0 <= row <= Rows => AxisLabel(l, textSizePx, labelGapPx, row).text)
         == ["100%", "90%", "80%", "70%", "60%", "50%", "40%", "30%", "20%", "10%", "0%"]
  {
    PercentTexts();
    assert seq(Rows + 1, row requires 0 <= row <= Rows => AxisLabel(l, textSizePx, labelGapPx, row).text)
        == seq(Rows + 1, row requires 0 <= row <= Rows => PercentText(row));
  }

  /** Segment `i` of a flat coordinate array. */
  function SegmentAt(pts: seq<int>, i: int): Segment
    requires 0 <= i && 4 * i + 3 < |pts|
  {
    Segment(pts[4 * i], pts[4 * i + 1], pts[4 * i + 2], pts[4 * i + 3])
  }

  /** A flat array whose every segment is the corresponding one of `segs` is
      the packing of `segs`. */
  lemma SegmentsDetermineArray(pts: seq<int>, segs: seq<Segment>)
    requires |pts| == 4 * |segs|
    requires forall i :: 0 <= i < |segs| ==> SegmentAt(pts, i) == segs[i]
    ensures pts == Flatten(segs)
  {
    forall i | 0 <= i < |segs|
      ensures Unflatten(pts)[i] == segs[i]
    {
      assert Unflatten(pts)[i] == SegmentAt(pts, i);
    }
    assert Unflatten(pts) == segs;
    FlattenUnflatten(pts);
  }

  /** The first grid loop: the horizontal lines of rows 0..Rows+1 into the
      first Rows + 2 segments of a zeroed array of `size` floats, and a label
      for each of rows 0..Rows. */
  method DrawRows(l: Layout, textSizePx: int, labelGapPx: int, size: int)
    returns (pts: seq<int>, labels: seq<Label>)
    requires l.Valid() && size >= (Rows + 2) * 4
    ensures |pts| == size
    ensures forall i :: 0 <= i <= Rows + 1 ==> SegmentAt(pts, i) == Horizontal(l, i)
    ensures |labels| == Rows + 1
    ensures forall row :: 0 <= row <= Rows ==> labels[row] == AxisLabel(l, textSizePx, labelGapPx, row)
  {
    pts := seq(size, _ => 0);
    labels := [];
    var y := 0;
    while y <= Rows + 1
      invariant 0 <= y <= Rows + 2
      invariant |pts| == size
      invariant forall i :: 0 <= i < y ==> SegmentAt(pts, i) == Horizontal(l, i)
      invariant |labels| == if y <= Rows then y else Rows + 1
      invariant forall row :: 0 <= row < |labels| ==> labels[row] == AxisLabel(l, textSizePx, labelGapPx, row)
    {
      pts := pts[y * 4 := l.xMarginLeft];
      pts := pts[y * 4 + 1 := l.yMarginTop + y * l.rowHeight];
      pts := pts[y * 4 + 2 := l.xMarginLeft + l.graphWidth];
      pts := pts[y * 4 + 3 := l.yMarginTop + y * l.rowHeight];
      if y <= Rows {
        labels := labels + [AxisLabel(l, textSizePx, labelGapPx, y)];
      }
      y := y + 1;
    }
  }

  /** The second grid loop: the vertical lines of columns 0..cols, written from
      offset `(Rows + 1) * 4`, where the last horizontal line began. Every
      horizontal line before it is kept. */
  method DrawColumns(l: Layout, pts0: seq<int>) returns (pts: seq<int>)
    requires l.Valid() && |pts0| == (Rows + l.cols + 2) * 4
    ensures |pts| == |pts0|
    ensures forall i :: 0 <= i <= Rows ==> SegmentAt(pts, i) == SegmentAt(pts0, i)
    ensures forall i :: 0 <= i <= l.cols ==> SegmentAt(pts, Rows + 1 + i) == Vertical(l, i)
  {
    pts := pts0;
    var aOffset := (Rows + 1) * 4;
    var x := 0;
    while x <= l.cols
      invariant 0 <= x <= l.cols + 1
      invariant |pts| == |pts0|
      invariant forall i :: 0 <= i <= Rows ==> SegmentAt(pts, i) == SegmentAt(pts0, i)
      invariant forall i :: 0 <= i < x ==> SegmentAt(pts, Rows + 1 + i) == Vertical(l, i)
    {
      pts := pts[aOffset + x * 4 := l.xMarginLeft + x * l.colWidth];
      pts := pts[aOffset + x * 4 + 1 := l.yMarginTop];
      pts := pts[aOffset + x * 4 + 2 := l.xMarginLeft + x * l.colWidth];
      pts := pts[aOffset + x * 4 + 3 := l.yMarginTop + l.graphHeight];
      assert SegmentAt(pts, Rows + 1 + x) == Vertical(l, x);
      x := x + 1;
    }
  }

  /** The grid part of `draw`: the first loop writes horizontal lines for rows
      0..Rows+1 and a label for rows 0..Rows; the second loop writes the vertical
      lines starting where the last horizontal line began, overwriting it. */
  method DrawGrid(l: Layout, textSizePx: int, labelGapPx: int)
    returns (gridPoints: seq<int>, labels: seq<Label>)
    requires l.Valid()
    ensures |gridPoints| == (Rows + l.cols + 2) * 4
    ensures gridPoints == Flatten(GridSegments(l))
    ensures |labels| == Rows + 1
    ensures forall row :: 0 <= row <= Rows ==> labels[row] == AxisLabel(l, textSizePx, labelGapPx, row)
  {
    var rowPts;
    rowPts, labels := DrawRows(l, textSizePx, labelGapPx, (Rows + l.cols + 2) * 4);
    gridPoints := DrawColumns(l, rowPts);
    var segs := GridSegments(l);
    forall i | 0 <= i < |segs|
      ensures SegmentAt(gridPoints, i) == segs[i]
    {
      if i > Rows {
        assert SegmentAt(gridPoints, Rows + 1 + (i - Rows - 1)) == Vertical(l, i - Rows - 1);
      }
    }
    SegmentsDetermineArray(gridPoints, segs);
  }

}

=== FILE: JavaInt.dfy ===
/**
 Java's 32-bit `int` arithmetic, written out over Dafny's unbounded integers:
 two's-complement wrap-around of `+` and `*`, the truncating quotient `/` and
 remainder `%`, and the outcome of a computation that may throw.
 */
module JavaInt {

  const MinInt: int := -0x8000_0000
  const MaxInt: int := 0x7fff_ffff
  const Modulus: int := 0x1_0000_0000

  /** True iff `n` is representable as a Java `int`. */
  predicate IsInt(n: int) {
    MinInt <= n <= MaxInt
  }

  /** The Java `int` that an exact result `n` wraps around to. */
  function Wrap(n: int): (r: int)
    ensures IsInt(r)
    ensures r % Modulus == n % Modulus
    ensures IsInt(n) ==> r == n
  {
    var m := n % Modulus;
    if m <= MaxInt then m else m - Modulus
  }

  /** Java's `a % b` for a positive divisor: the remainder of division
      truncated toward zero, which takes the sign of the dividend `a`. */
  function Rem(a: int, b: int): (r: int)
    requires b > 0
    ensures -b < r < b
    ensures a >= 0 ==> r == a % b
    ensures a < 0 ==> r <= 0
  {
    if a >= 0 then a % b else -((-a) % b)
  }

  /** Java's `a / b` for a non-negative dividend: the quotient truncated
      toward zero. For a negative divisor it is the non-positive `q` with
      `q * b <= a < q * b - b`, so 0 exactly when the divisor outweighs the
      dividend. */
  function Div(a: int, b: int): (q: int)
    requires a >= 0 && b != 0
    ensures b > 0 ==> q == a / b
    ensures b < 0 ==> q <= 0 && q * b <= a < q * b - b
    ensures b < 0 ==> (q == 0 <==> a < -b)
  {
    if b > 0 then a / b
    else
      var c := -b;
      var k := a / c;
      assert a == c * k + a % c;
      assert -k * b == c * k;
      assert k >= 1 ==> a >= c by {
        if k >= 1 {
          assert c * k >= c * 1;
        }
      }
      -k
  }

  /** Residues mod 2^32 add: sums of congruent summands are congruent. */
  lemma AddCongruent(a: int, b: int, a': int, b': int)
    requires a % Modulus == a' % Modulus && b % Modulus == b' % Modulus
    ensures (a + b) % Modulus == (a' + b') % Modulus
  {
    assert a == Modulus * (a / Modulus) + a % Modulus;
    assert a' == Modulus * (a' / Modulus) + a' % Modulus;
    assert b == Modulus * (b / Modulus) + b % Modulus;
    assert b' == Modulus * (b' / Modulus) + b' % Modulus;
    var k := a / Modulus + b / Modulus - a' / Modulus - b' / Modulus;
    assert a + b == (a' + b') + Modulus * k;
  }

  /** The runtime exceptions the modelled code can throw. */
  datatype Exception = ArithmeticException | NegativeArraySizeException | ArrayIndexOutOfBoundsException

  /** A computation that either returns a value or throws. */
  datatype Outcome<T> = Returns(value: T) | Throws(exception: Exception)
}

=== FILE: MetalDetectorFragment.dfy ===
/**
 The fragment's reaction to a sensor reading: the integer magnitude of the three
 field components, capped at 100, which sets the graph's current value and
 triggers a tone above 50.
 */
module MetalDetectorFragment {
  import JavaInt
  import SampleRing
  import GraphView

  /** The largest value forwarded to the graph. */
  const Cap: int := 100

  /** A tone is played for values strictly above this. */
  const ToneThreshold: int := 50

  /** Floor square root. */
  function ISqrt(n: nat): (r: nat)
    ensures r * r <= n < (r + 1) * (r + 1)
  {
    if n == 0 then 0
    else
      var r := 2 * ISqrt(n / 4);
      ISqrtStep(n, ISqrt(n / 4));
      if (r + 1) * (r + 1) <= n then r + 1 else r
  }

  /** Doubling the root of `n / 4` gives a root of `n` that is at most one short. */
  lemma ISqrtStep(n: nat, s: nat)
    requires s * s <= n / 4 < (s + 1) * (s + 1)
    ensures (2 * s) * (2 * s) <= n < (2 * s + 2) * (2 * s + 2)
  {
    var q := n / 4;
    assert n == 4 * q + n % 4;
    assert (2 * s) * (2 * s) == 4 * (s * s);
    assert (2 * s + 2) * (2 * s + 2) == 4 * ((s + 1) * (s + 1));
  }

  /** The floor square root is the only `r` with `r*r <= n < (r+1)*(r+1)`. */
  lemma ISqrtUnique(n: nat, r: nat)
    requires r * r <= n < (r + 1) * (r + 1)
    ensures ISqrt(n) == r
  {
    var s := ISqrt(n);
    SquareLess(s, r + 1);
    SquareLess(r, s + 1);
  }

  lemma SquareMonotone(a: nat, b: nat)
    requires a <= b
    ensures a * a <= b * b
  {
    assert a * a <= a * b <= b * b;
  }

  /** Squares of naturals order their roots. */
  lemma SquareLess(a: nat, b: nat)
    requires a * a < b * b
    ensures a < b
  {
    if b <= a {
      SquareMonotone(b, a);
    }
  }

  /** Floor square root is monotone. */
  lemma ISqrtMonotone(a: nat, b: nat)
    requires a <= b
    ensures ISqrt(a) <= ISqrt(b)
  {
    SquareLess(ISqrt(a), ISqrt(b) + 1);
  }

  /** `(int) Math.sqrt(n)` for a Java `int` `n`: the floor square root, and 0
      for a negative `n`, whose square root is NaN and casts to 0. */
  function SqrtToInt(n: int): (r: int)
    ensures r >= 0
    ensures n >= 0 ==> r * r <= n < (r + 1) * (r + 1)
    ensures n < 0 ==> r == 0
  {
    if n < 0 then 0 else ISqrt(n)
  }

  /** The true squared magnitude `x*x + y*y + z*z`. */
  function MagnitudeSquared(x: int, y: int, z: int): nat {
    SquareNonNegative(x);
    SquareNonNegative(y);
    SquareNonNegative(z);
    x * x + y * y + z * z
  }

  lemma SquareNonNegative(a: int)
    ensures a * a >= 0
  {
  }

  /** `x * x + y * y + z * z` evaluated in Java `int` arithmetic, each product
      and sum wrapping around. */
  function SquareSum(x: int, y: int, z: int): (s: int)
    requires JavaInt.IsInt(x) && JavaInt.IsInt(y) && JavaInt.IsInt(z)
    ensures JavaInt.IsInt(s)
    ensures s % JavaInt.Modulus == MagnitudeSquared(x, y, z) % JavaInt.Modulus
    ensures MagnitudeSquared(x, y, z) <= JavaInt.MaxInt ==> s == MagnitudeSquared(x, y, z)
  {
    SquareNonNegative(x);
    SquareNonNegative(y);
    SquareNonNegative(z);
    var xx, yy, zz := JavaInt.Wrap(x * x), JavaInt.Wrap(y * y), JavaInt.Wrap(z * z);
    var t := JavaInt.Wrap(xx + yy);
    JavaInt.AddCongruent(xx, yy, x * x, y * y);
    JavaInt.AddCongruent(t, zz, x * x + y * y, z * z);
    JavaInt.Wrap(t + zz)
  }

  /** What one sensor reading leads to: the value handed to the graph and
      whether a tone is started. */
  datatype Reaction = Reaction(value: int, tone: bool)

  /** The lesser of `v` and `Cap`. */
  function Capped(v: int): int {
    if v > Cap then Cap else v
  }

  /** `setGeomagneticFieldStrength`. The value is always in [0, Cap]; without
      overflow it is the floor square root of the squared magnitude, capped;
      the tone fires exactly when the value exceeds the threshold, and the value
      is forwarded either way. */
  function SetGeomagneticFieldStrength(x: int, y: int, z: int): (r: Reaction)
    requires JavaInt.IsInt(x) && JavaInt.IsInt(y) && JavaInt.IsInt(z)
    ensures 0 <= r.value <= Cap
    ensures r.tone <==> r.value > ToneThreshold
    ensures MagnitudeSquared(x, y, z) <= JavaInt.MaxInt ==>
      r.value == Capped(ISqrt(MagnitudeSquared(x, y, z)))
  {
    var root := SqrtToInt(SquareSum(x, y, z));
    var v := if root > Cap then Cap else root;
    Reaction(v, v > ToneThreshold)
  }

  /** Components in the sensor controller's normalised range [0, 100] cannot
      overflow: the value is the capped floor square root of the true sum. */
  lemma NormalisedInputsDoNotOverflow(x: int, y: int, z: int)
    requires 0 <= x <= 100 && 0 <= y <= 100 && 0 <= z <= 100
    ensures SquareSum(x, y, z) == MagnitudeSquared(x, y, z)
    ensures SetGeomagneticFieldStrength(x, y, z).value == Capped(ISqrt(MagnitudeSquared(x, y, z)))
  {
    SquareMonotone(x, 100);
    SquareMonotone(y, 100);
    SquareMonotone(z, 100);
  }

  /** A squared magnitude of at least 100 * 100 gives the full value 100. */
  lemma SaturatesAtFullScale(x: int, y: int, z: int)
    requires JavaInt.IsInt(x) && JavaInt.IsInt(y) && JavaInt.IsInt(z)
    requires Cap * Cap <= MagnitudeSquared(x, y, z) <= JavaInt.MaxInt
    ensures SetGeomagneticFieldStrength(x, y, z).value == Cap
  {
    ISqrtUnique(Cap * Cap, Cap);
    ISqrtMonotone(Cap * Cap, MagnitudeSquared(x, y, z));
  }

  /** Without overflow, growing any component's square never lowers the value. */
  lemma MonotoneInSquares(x: int, y: int, z: int, x': int, y': int, z': int)
    requires JavaInt.IsInt(x) && JavaInt.IsInt(y) && JavaInt.IsInt(z)
    requires JavaInt.IsInt(x') && JavaInt.IsInt(y') && JavaInt.IsInt(z')
    requires x * x <= x' * x' && y * y <= y' * y' && z * z <= z' * z'
    requires MagnitudeSquared(x', y', z') <= JavaInt.MaxInt
    ensures SetGeomagneticFieldStrength(x, y, z).value <= SetGeomagneticFieldStrength(x', y', z').value
  {
    ISqrtMonotone(MagnitudeSquared(x, y, z), MagnitudeSquared(x', y', z'));
  }

  /** Outside the normalised range the squares can overflow: 46341 squared
      wraps to a negative `int`, whose square root casts to 0, so a larger
      component can give a smaller value. */
  lemma OverflowGivesZero()
    ensures SquareSum(46341, 0, 0) < 0
    ensures SetGeomagneticFieldStrength(46341, 0, 0) == Reaction(0, false)
  {
  }

  /** The reading's effect on the graph: the view's current value becomes the
      capped magnitude, whether or not a tone fires; nothing else changes. */
  function ForwardToGraph(view: GraphView.View, x: int, y: int, z: int): (res: (GraphView.View, bool))
    requires JavaInt.IsInt(x) && JavaInt.IsInt(y) && JavaInt.IsInt(z)
    ensures res.0.y == SetGeomagneticFieldStrength(x, y, z).value && 0 <= res.0.y <= Cap
    ensures res.0.ring == view.ring && res.0.xWidth == view.xWidth
    ensures res.1 <==> res.0.y > ToneThreshold
  {
    var r := SetGeomagneticFieldStrength(x, y, z);
    (GraphView.SetYValue(view, r.value), r.tone)
  }

  /** A reading followed by a timer tick puts its capped magnitude in the
      newest column of the graph, and keeps all samples in [0, 100]. */
  lemma ReadingReachesGraph(view: GraphView.View, x: int, y: int, z: int, n: int)
    requires JavaInt.IsInt(x) && JavaInt.IsInt(y) && JavaInt.IsInt(z)
    requires view.ring.Valid() && SampleRing.SamplesInRange(view.ring)
    requires 1 <= n <= SampleRing.Capacity
    ensures var v' := GraphView.TimerTick(ForwardToGraph(view, x, y, z).0);
      && SampleRing.Window(v'.ring, n)[n - 1] == SetGeomagneticFieldStrength(x, y, z).value
      && SampleRing.SamplesInRange(v'.ring)
  {
    GraphView.TickKeepsRange(ForwardToGraph(view, x, y, z).0);
  }
}

=== FILE: SampleRing.dfy ===
/**
 The graph view's sample ring: a fixed buffer of `VALUE_BUFFER_SIZE` ints and the
 cursor `valueBufferStartPosition`, advanced by one write per timer tick, and the
 index arithmetic the drawing code uses to read the most recent samples back in
 chronological order.
 */
module SampleRing {
  import JavaInt

  /** `VALUE_BUFFER_SIZE`: the number of slots in the ring. */
  const Capacity: int := 750

  /** The buffer and its write cursor. The cursor is the index of the NEXT write,
      and may equal `Capacity`: it is wrapped lazily, just before a write. */
  datatype Ring = Ring(buffer: seq<int>, start: int) {
    predicate Valid() {
      |buffer| == Capacity && 0 <= start <= Capacity
    }
  }

  /** True iff every slot holds a value in [0, 100], the range the drawing's
      scale is made for. */
  predicate SamplesInRange(r: Ring)
    requires r.Valid()
  {
    forall i :: 0 <= i < Capacity ==> 0 <= r.buffer[i] <= 100
  }

  /** The ring as the view's constructor leaves it: zero-filled, cursor at 0. */
  function Empty(): (r: Ring)
    ensures r.Valid() && r.start == 0
    ensures forall i :: 0 <= i < Capacity ==> r.buffer[i] == 0
  {
    Ring(seq(Capacity, _ => 0), 0)
  }

  /** One run of the timer task: a cursor at the end is reset to 0, then the
      current value `y` is stored at the cursor and the cursor advances. */
  function Tick(r: Ring, y: int): (r': Ring)
    requires r.Valid()
    ensures r'.Valid() && 1 <= r'.start
    ensures r'.start - 1 == r.start % Capacity
    ensures r'.buffer[r'.start - 1] == y
    ensures forall i :: 0 <= i < Capacity && i != r'.start - 1 ==> r'.buffer[i] == r.buffer[i]
  {
    var pos := if r.start == Capacity then 0 else r.start;
    Ring(r.buffer[pos := y], pos + 1)
  }

  /** The ring after one tick per element of `ys`, oldest first. */
  function Run(r: Ring, ys: seq<int>): (r': Ring)
    requires r.Valid()
    ensures r'.Valid()
    ensures |ys| > 0 ==> 1 <= r'.start
    ensures r'.start % Capacity == (r.start + |ys|) % Capacity
    decreases |ys|
  {
    if ys == [] then r
    else
      var r1 := Run(r, ys[..|ys| - 1]);
      var r' := Tick(r1, ys[|ys| - 1]);
      NextCongruent(r1.start % Capacity, r1.start);
      NextCongruent(r1.start, r.start + |ys| - 1);
      r'
  }

  /** Successors of numbers congruent mod `Capacity` are congruent. */
  lemma NextCongruent(a: int, b: int)
    requires a % Capacity == b % Capacity
    ensures (a + 1) % Capacity == (b + 1) % Capacity
  {
    assert a == Capacity * (a / Capacity) + a % Capacity;
    assert b == Capacity * (b / Capacity) + b % Capacity;
  }

  /** The slot that was written `age` ticks before the latest write (age 0 is
      the latest), for a cursor that has seen at least one write. */
  function SlotByAge(start: int, age: int): (i: int)
    requires 1 <= start <= Capacity && 0 <= age < Capacity
    ensures 0 <= i < Capacity
    ensures i == start - 1 - age || i == start - 1 - age + Capacity
  {
    if age < start then start - 1 - age else start - 1 - age + Capacity
  }

  /** The buffer index read for screen column `x` when `n` columns are drawn,
      computed with Java's `%`. */
  function ColumnIndex(start: int, x: int, n: int): (i: int)
    ensures 0 <= start <= Capacity && n <= Capacity && 0 <= x ==> 0 <= i < Capacity
  {
    JavaInt.Rem(start + x + Capacity - n, Capacity)
  }

  /** Column `x` of `n` reads the sample written `n - 1 - x` ticks before the
      latest one: column 0 is the oldest shown, column `n - 1` the newest. */
  lemma ColumnIndexIsAge(start: int, x: int, n: int)
    requires 1 <= start <= Capacity && 1 <= n <= Capacity && 0 <= x < n
    ensures ColumnIndex(start, x, n) == SlotByAge(start, n - 1 - x)
  {
  }

  /** With more than `Capacity` columns the dividend goes negative and Java's
      `%` keeps the sign: column 0 of 751 on a fresh ring indexes slot -1. */
  lemma ColumnIndexNegativeWhenTooWide()
    ensures ColumnIndex(0, 0, Capacity + 1) == -1
  {
  }

  /** Exactly when the read index stays in the buffer: when the dividend
      `start + x + Capacity - n` is non-negative, or a negative multiple of
      `Capacity`. So column 0 can go negative only when `n > Capacity + start`;
      on a fresh ring that is any `n > Capacity`, while a cursor at `Capacity`
      tolerates up to `2 * Capacity` columns. */
  lemma ColumnIndexInBoundsExactly(start: int, x: int, n: int)
    requires 0 <= start <= Capacity && 0 <= x
    ensures 0 <= ColumnIndex(start, x, n) < Capacity
            <==> (n <= start + x + Capacity || (start + x + Capacity - n) % Capacity == 0)
  {
  }

  /** The `n` most recent samples, oldest first, as the drawing code reads them. */
  function Window(r: Ring, n: int): (w: seq<int>)
    requires r.Valid() && 1 <= n <= Capacity
    ensures |w| == n
  {
    seq(n, x requires 0 <= x < n => r.buffer[ColumnIndex(r.start, x, n)])
  }

  /** One tick scrolls every window by one column: each column shows what
      the column to its right showed before, and the newest column shows the
      value just written. This holds from any valid ring, fresh or wrapped. */
  lemma TickScrollsWindow(r: Ring, y: int, n: int)
    requires r.Valid() && 1 <= n <= Capacity
    ensures forall x :: 0 <= x < n - 1 ==> Window(Tick(r, y), n)[x] == Window(r, n)[x + 1]
    ensures Window(Tick(r, y), n)[n - 1] == y
  {
    var r' := Tick(r, y);
    forall x | 0 <= x < n - 1
      ensures Window(r', n)[x] == Window(r, n)[x + 1]
    {
      var i := ColumnIndex(r'.start, x, n);
      assert i == ColumnIndex(r.start, x + 1, n);
      assert i != r'.start - 1;
    }
    ColumnIndexIsAge(r'.start, n - 1, n);
  }

  /** After any sequence of ticks, the slot `age` ticks old holds the value
      written then, as long as fewer than `Capacity` writes came after it. */
  lemma {:induction false} RunKeepsHistory(r: Ring, ys: seq<int>, age: int)
    requires r.Valid()
    requires 0 <= age < |ys| && age < Capacity
    ensures Run(r, ys).buffer[SlotByAge(Run(r, ys).start, age)] == ys[|ys| - 1 - age]
    decreases |ys|
  {
    var prefix := ys[..|ys| - 1];
    var r1 := Run(r, prefix);
    var r' := Run(r, ys);
    assert r' == Tick(r1, ys[|ys| - 1]);
    if age > 0 {
      RunKeepsHistory(r, prefix, age - 1);
      assert SlotByAge(r'.start, age) == SlotByAge(r1.start, age - 1);
    }
  }

  /** Ring correctness: once at least `n` values have been written, the window
      of `n` columns is exactly the last `n` values written, in order. This
      holds whatever the starting state and however often the cursor wrapped,
      including when the cursor sits at `Capacity`. */
  lemma WindowIsLatestSamples(r: Ring, ys: seq<int>, n: int)
    requires r.Valid() && 1 <= n <= Capacity && n <= |ys|
    ensures forall x :: 0 <= x < n ==> Window(Run(r, ys), n)[x] == ys[|ys| - n + x]
  {
    var r' := Run(r, ys);
    forall x | 0 <= x < n
      ensures Window(r', n)[x] == ys[|ys| - n + x]
    {
      ColumnIndexIsAge(r'.start, x, n);
      RunKeepsHistory(r, ys, n - 1 - x);
    }
  }

  /** A concrete wrap: from a cursor at 747, three writes leave the cursor at
      `Capacity` with the three values in the last three columns; a fourth
      write goes to slot 0 and appears after them. */
  lemma WrapAroundScenario(r: Ring)
    requires r.Valid() && r.start == 747
    ensures Run(r, [10, 20, 30]).start == Capacity
    ensures Window(Run(r, [10, 20, 30]), 3) == [10, 20, 30]
    ensures Tick(Run(r, [10, 20, 30]), 40).start == 1
    ensures Window(Tick(Run(r, [10, 20, 30]), 40), 4) == [10, 20, 30, 40]
  {
    var ys := [10, 20, 30, 40];
    assert ys[..3] == [10, 20, 30];
    assert [10, 20, 30][..2] == [10, 20];
    assert [10, 20][..1] == [10];
    assert [10][..0] == [];
    WindowIsLatestSamples(r, [10, 20, 30], 3);
    WindowIsLatestSamples(r, ys, 4);
  }
}
